=== FILE: README.md ===
# termatrix in Dafny

A model of the animation core of TERMatrix (`termatrix.c`), the terminal
"falling character rain". The screen has `R` rows and `C` columns. Each
column slot holds at most one streak. On every timer tick, `print` walks the
columns from left to right. An empty slot may receive a newborn streak. A
present streak ticks its counter modulo its speed. When the counter wraps,
the streak takes one advance step: it redraws its body, erases its trailing
edge once its length budget is spent, grows its leading edge, and is
retired when the two edges meet. Glyphs come from `get_char`. When standard
input is a terminal, it picks a random member of the alphabet `V`. When
input is a pipe, it pops the next byte of a ring buffer. The reader loop in
`main` fills that buffer with normalised input bytes.

Modules, one per component:

- `CChars` (cchars.dfy): the signed 8-bit `char` and the two's-complement
  store of an `int` into it.
- `RingBuffer` (ring.dfy): `buf`, `ofw` and `ofr`, the write and the
  pipe-mode read, and first-in-first-out lemmas.
- `Input` (input.dfy): byte normalisation, one pass of the reader loop, and
  the pipe round trip.
- `Glyphs` (glyphs.dfy): the alphabet, the shared state `Env`, the `rand()`
  oracle and `get_char`.
- `Terminal` (terminal.dfy): the escape sequences as abstract `Draw`
  commands, and predicates over draw lists.
- `Streaks` (streaks.dfy): the `Streak` record, creation, body redraw,
  advance step, one column of one tick, the invariant and the exact lifetime
  of a streak.
- `Render` (render.dfy): `initTerm`, the column loop as a function, and
  `print` as a loop proved to compute the same thing.

Randomness is a parameter. `rand()` is an `Oracle`, a function from call
number to outcome, and `Env.k` counts the outcomes used so far. Every
property therefore holds for every random outcome. No probability is
claimed.

Points of the code that the model keeps as written:

- The body redraw (termatrix.c:181-192) comes first in an advance step,
  before the erase and the growth (`Streaks.AdvanceStages`), and it always
  reaches the row above the leading edge (`Streaks.AdvanceBodyEdge`). It
  calls `get_char` for every cell it redraws (line 191). In pipe mode it
  therefore consumes buffered bytes (`Streaks.RedrawGlyphs`,
  `Streaks.AdvanceGlyphs`).
- A newborn streak has `start = end = 0` and is not advanced in the tick
  that creates it, because creation is the `else` branch at line 225.
  After a first tick in which every trial succeeds, every column holds a
  streak with `end = 0` (`Render.CreationTick`).
- `V` (line 46) has 94 characters.
- `read` returning -1 (an error) is truthy at line 83. The still-zero `ch` is
  then normalised to a blank and written. Only end of input (0) writes
  nothing.
- `ch *= -1` on -128 does not fit in a `char`. On two's-complement targets
  it stays -128, so normalisation maps -128 to -128. That byte is still
  nonzero, so it never looks like an empty slot.
- The trailing-edge erase (lines 197-203) can move the cursor to row `R`,
  one row below the screen. It does so only on the step that retires the
  streak (`Streaks.AdvanceRows`).

The shared state `Env` (ring buffer, input mode, random outcomes used) is
framed throughout the animation by `ReadsOnly`: the animation never moves the
write cursor, leaves the buffer alone when input is not piped, and only uses
up random outcomes.

## Model

| member | source | states |
|---|---|---|
| `CChars.Wrap` | termatrix.c:85 | storing an int into a `char` is the identity on [-128, 127] and otherwise keeps the value modulo 256 |
| `Input.Normalize` | termatrix.c:85-87 | every byte except -128 is folded into [32, 126]; -128 stays -128; the result is never the zero sentinel; printable bytes are unchanged |
| `Input.NormalizeIdempotent` | termatrix.c:85-87 | normalising a byte twice gives the same as normalising it once |
| `Input.NormalizeFixedPoints` | termatrix.c:85-87 | the bytes normalisation leaves alone are exactly [32, 126] and -128 |
| `Input.NormalizeTable` | termatrix.c:85-87 | for a byte other than -128, the result is its magnitude, plus 32 below 32, with 127 mapped to 126 |
| `Input.Ingest` | termatrix.c:78-93 | without a pipe the buffer is untouched; with one, a byte read is normalised and written, an error writes a blank, end of input writes nothing; a written slot is never zero and `ofw` advances modulo BS |
| `Input.IngestAll` | termatrix.c:78-94 | the reader loop over a run of successful reads (`read` returning 1 every time; errors and end of input are covered by `Input.Ingest`) moves the write cursor on one slot per byte, wrapping, and never moves the read cursor |
| `Input.IngestAllWrites` | termatrix.c:81-91 | feeding piped bytes through the reader loop writes their normalised values in order |
| `Input.PipeRoundTrip` | termatrix.c:85-111 | a reader that has caught up with the writer gets back the normalised piped bytes in arrival order, for up to BS pending bytes |
| `Input.PipeThenBlank` | termatrix.c:85-113 | a reader that drains fewer than BS piped bytes and then reaches a slot that was empty gets the normalised bytes followed by a blank |
| `Input.SampleInput` | termatrix.c:85-113 | piping 'A', NUL, 0x1F, DEL yields "A ?~", and a fifth read yields a blank |
| `RingBuffer.Write` | termatrix.c:88-90 | the byte lands at `ofw`, no other slot changes, `ofw` moves to `(ofw+1) % BS` and stays below BS, `ofr` is unchanged |
| `RingBuffer.Take` | termatrix.c:103-113 | a nonzero byte at `ofr` is returned, its slot cleared and `ofr` advanced modulo BS; a zero slot yields a blank and changes nothing; the sentinel is never returned |
| `RingBuffer.WriteAllPlaces` | termatrix.c:88-90 | after writing a run of at most BS bytes, `ofw` has moved on by the run's length, the slot at forward distance i from the old `ofw` holds the i-th byte, and every other slot is as before |
| `RingBuffer.TakeFirst` | termatrix.c:105-110 | one read over pending nonzero bytes returns the first, clears its slot, and leaves the rest pending at the moved `ofr` |
| `RingBuffer.TakeNReads` | termatrix.c:105-111 | k reads over k pending nonzero bytes return them in ring order, leave `ofr` k slots on and leave the other slots alone |
| `RingBuffer.DrainThenBlank` | termatrix.c:105-113 | after the pending bytes are read, a read of the empty slot that follows them yields a blank |
| `RingBuffer.WriteThenDrain` | termatrix.c:88-113 | fewer than BS nonzero bytes written after the reader caught up, then one more read of a slot that was empty, give the bytes followed by a blank |
| `RingBuffer.Fifo` | termatrix.c:88-111 | up to BS nonzero bytes written after the reader caught up are read back in the order written |
| `Glyphs.GetChar` | termatrix.c:99-116 | in pipe mode it pops the ring buffer, using no random outcome and never returning zero; otherwise it returns a member of `V`, using one random outcome and leaving the buffer alone; either way the write cursor and the input mode are unchanged |
| `Streaks.Create` | termatrix.c:225-237 | an empty slot gets a streak exactly when the trial succeeds; a newborn has start = end = 0, counter 0, last 0, speed in [6, 16] and budget in [1, R]; nothing is drawn |
| `Streaks.Paint` | termatrix.c:184-191 | a redrawn cell is a colour command (dim green or a bright colour at normal weight), a move to its own row in column c, and the glyph `get_char` returns: the ring buffer's next byte, which the read pops, when input is piped, and a member of `V` otherwise |
| `Streaks.Redraw` | termatrix.c:181-192 | body redraws stay in the column and in the occupied visible rows, go strictly top to bottom, and use only the dim green or a bright colour |
| `Streaks.PaintColour` | termatrix.c:184-187 | a redrawn cell is dim green exactly when its first colour trial falls under the dark probability; otherwise its colour is red plus the second outcome modulo 7, at normal weight |
| `Streaks.RedrawTrial` | termatrix.c:181-182 | an occupied visible row is redrawn exactly when its letter-change trial succeeds or it is the row just above the leading edge |
| `Streaks.RedrawReachesEdge` | termatrix.c:181-182 | the row just above the leading edge is always redrawn when it is on screen |
| `Streaks.Erase` | termatrix.c:197-203 | the trailing cell is erased exactly when the budget is spent: a move to the trailing edge's row in column c followed by a blank, with no colour command; with the budget spent the draws are exactly those two |
| `Streaks.Grow` | termatrix.c:205-214 | while the leading edge is on screen it is drawn as white, move, glyph, the glyph is the one `get_char` returns (popped from the ring buffer when piped, a member of `V` otherwise) and is kept as the newest glyph, and the edge moves down one row; at or below the bottom nothing is drawn and nothing changes |
| `Streaks.Advance` | termatrix.c:179-223 | the budget drops by one exactly when positive; the trailing edge moves down exactly when the budget was spent; the leading edge moves down exactly one row while it is at most R (past the bottom row included) and stays put below that, and its cell is drawn while on screen; a stored streak never has meeting edges; the shared state changes by reads only |
| `Streaks.AdvanceStages` | termatrix.c:181-214 | an advance step draws the body redraw, then the trailing-edge erase, then the leading-edge growth from the edge as bumped at line 194, with the growth reading the state the redraw left; the step's final shared state is the growth's |
| `Streaks.AdvanceBodyEdge` | termatrix.c:181-192 | an advance step of a non-empty streak whose leading edge is on screen redraws the row just above that edge |
| `Streaks.AdvanceEraseLast` | termatrix.c:197-214 | once the budget is spent the step puts a blank on the trailing edge's row, and no later draw of that step moves back to that row, so the blank is what remains there |
| `Streaks.AdvanceEdges` | termatrix.c:197-214 | once the budget is spent a blank is put on the trailing edge's row; a leading glyph drawn on screen is the last draw and becomes the streak's `last`; otherwise `last` is unchanged |
| `Streaks.RedrawGlyphs` | termatrix.c:181-192 | the body redraw is a run of whole cells whose glyphs, in pipe mode, are exactly the next bytes the ring buffer yields, one read per redrawn cell, leaving the buffer as those reads leave it; otherwise all glyphs are in `V` |
| `Streaks.AdvanceGlyphs` | termatrix.c:181-214 | the glyphs of an advance step (body cells, then the leading cell; not the erase blank) are exactly the bytes its reads of the ring buffer return in pipe mode, and the buffer ends as those reads leave it; otherwise they are all in `V` |
| `Streaks.AdvanceOrdered` | termatrix.c:194-223 | an advance keeps `start <= end <= R+1`, stores only streaks with `start < end`, uses up exactly one unit of the measure n + R + 1 - start, and retires exactly when the budget is spent and `start = R` |
| `Streaks.AdvanceRows` | termatrix.c:181-214 | an advance draws only on rows [0, R]; a streak that stays stored draws on visible rows [0, R) only, so row R is touched only by the erase of the retiring step |
| `Streaks.Step` | termatrix.c:175-237 | the counter after a tick is `(counter+1) % speed`, below speed; while it is nonzero nothing else changes, nothing is drawn and no random outcome is used; a newborn is not advanced; draws stay in the column |
| `Streaks.StepAdvances` | termatrix.c:177-223 | the tick on which the counter wraps to zero is exactly the advance step of the streak with its counter reset, so that step's draws, reads and slot are the tick's |
| `Streaks.StepCreates` | termatrix.c:225-237 | a tick over an empty slot is exactly the creation trial |
| `Streaks.StepInv` | termatrix.c:175-237 | one tick keeps the stored-streak invariant and draws only on rows [0, R] |
| `Streaks.StepMeasure` | termatrix.c:177-223 | a waiting tick moves the counter on by one and keeps the measure; an advancing tick comes when the counter wraps and lowers the measure by one; removal happens only on that tick with one unit left |
| `Streaks.NewbornLifetime` | termatrix.c:230-234 | a newborn streak with budget n lives exactly speed * (n + R + 1) ticks |
| `Streaks.TicksToRetire` | termatrix.c:177-223 | every stored streak is removed after exactly speed * (measure - 1) + (speed - counter) ticks, whatever the random outcomes |
| `Render.InitTerm` | termatrix.c:118-145 | without a terminal size the program aborts; otherwise there are exactly C slots, all empty, R rows, and the cursor is hidden and the screen cleared |
| `Render.ColumnStep` | termatrix.c:174-237 | processing column c changes only slot c, which becomes what one tick of that slot yields; the column's draws and shared state are exactly that tick's; all draws are in column c and the shared state changes by reads only |
| `Render.TickFrom` | termatrix.c:174-237 | the column loop from column c keeps the number of slots, leaves the slots before c untouched, and changes the shared state by reads only |
| `Render.TickFromColumns` | termatrix.c:174-237 | columns are visited left to right, so the draws from column c on touch only columns c and beyond and never go back to an earlier column |
| `Render.TickFromInv` | termatrix.c:174-237 | the column loop keeps the streak invariant of every slot and draws only on rows [0, R] |
| `Render.Tick` | termatrix.c:171-240 | one tick keeps the number of slots and the streak invariant, its draws go left to right and stay on rows [0, R], and it changes the shared state by reads only |
| `Render.Print` | termatrix.c:171-240 | the column loop, replacing one slot per pass, computes exactly the slots, draws and final state of the column-by-column definition |
| `Render.CreationTick` | termatrix.c:225-237 | on a fresh screen, a first tick in which every trial succeeds puts a newborn streak with start = end = 0 in every column and draws nothing |

## Left out

- Signals and the timer (termatrix.c:147-169) and `pause()`: asynchronous OS plumbing. One call of `print` is one `Render.Tick`.
- Terminal geometry (termatrix.c:123-132): opening `/dev/tty` and `ioctl` are foreign calls. Their outcome is the `Winsize` parameter of `Render.InitTerm`.
- Escape-sequence text (termatrix.c:23-28): draws are abstract `Draw` commands, not formatted strings. The `fflush` at line 239 is represented by returning all of a tick's draws together.
- Concurrency between the reader loop and the timer handler on `buf`: writes (`Input.Ingest`) and reads (`Glyphs.GetChar`) are separate sequential operations on one state.
- `malloc`/`free` and the leak on resize (termatrix.c:134-136): a slot is a `Slot` value.
- `srand` and `rand` (termatrix.c:71): outcomes come from an `Oracle` of arbitrary naturals. The `RAND_MAX` bound and the probabilities (20%, 25%, 75%) are not modelled.
- `end()` (termatrix.c:242-253): terminal reset, farewell quote and exit are output-only teardown.
- A screen with zero rows: creation computes `rand() % R`, which divides by zero when `R` is 0. `Streaks.Step` and the column loop require `R >= 1`.
- RingBuffer.Fifo: states first-in-first-out only while at most BS bytes are pending. Beyond that the ring overwrites unread bytes, and which bytes survive is not stated.
- Glyphs.GetChar: does not state that the alphabet glyphs are printable, only that they are members of `V`.

=== FILE: cchars.dfy ===
/** The source's `char`: a signed 8-bit integer on the two's-complement
    platforms the program targets. */
module CChars {

  newtype CChar = x: int | -128 <= x < 128

  /** The byte the ring buffer uses to mark a slot as "nothing to read". */
  const Nul: CChar := 0

  /** The blank drawn when there is nothing to show. */
  const Space: CChar := 32

  /** Stores an `int` into a `char`: the low eight bits are kept and read back
      as a signed value. */
  function Wrap(x: int): (r: CChar)
    ensures -128 <= x < 128 ==> r as int == x
    ensures (r as int - x) % 256 == 0
  {
    ((x + 128) % 256 - 128) as CChar
  }
}

=== FILE: glyphs.dfy ===
/** `get_char`: where the glyphs come from, a random alphabet when standard
    input is a terminal and the ring buffer when it is a pipe. */
module Glyphs {
  import opened CChars
  import opened RingBuffer

  /** The bytes of a C string literal, one `char` per character. */
  function Bytes(s: string): (bs: seq<CChar>)
    ensures |bs| == |s|
  {
    seq(|s|, i requires 0 <= i < |s| => Wrap(s[i] as int))
  }

  /** The alphabet `V`, as written in the source (94 characters). */
  const V: seq<CChar> :=
    Bytes("0123456789ABCDEFGHIJKLMNOPQRSTUVWXYZabcdefghijklmnopqrstuvwxyz<>()[]{}.,:;!@#$%^&*-_=+|?/`~'\"\\")

  /** The outcomes of successive `rand()` calls; any sequence at all, so that
      what is proved holds for every random outcome. */
  type Oracle = nat -> nat

  /** The state `get_char` and the animation share: the ring buffer, whether
      input is piped, and how many `rand()` outcomes have been used. */
  datatype Env = Env(ring: Ring, pipein: bool, k: nat) {
    predicate Valid() {
      ring.Valid()
    }
  }

  /** e2 is reached from e by reads alone, as the animation does: the input
      mode and the write cursor are unchanged, the buffer is untouched unless
      input is piped, and random outcomes are only ever used up. */
  predicate ReadsOnly(e: Env, e2: Env) {
    && e2.pipein == e.pipein
    && e2.ring.ofw == e.ring.ofw
    && (!e.pipein ==> e2.ring == e.ring)
    && e.k <= e2.k
  }

  /** One call to `rand()`. */
  function Rand(oracle: Oracle, e: Env): (res: (nat, Env))
  {
    (oracle(e.k), e.(k := e.k + 1))
  }

  /** The next glyph. From a pipe it is the ring buffer's next byte (a blank
      if none is pending) and no random outcome is used; otherwise it is a
      member of `V` picked by one random outcome, and the buffer is not
      touched. */
  function GetChar(oracle: Oracle, e: Env): (res: (CChar, Env))
    requires e.Valid()
    ensures res.1.Valid() && ReadsOnly(e, res.1)
    ensures e.pipein ==> res.1.k == e.k && res.1.ring == Take(e.ring).1 && res.0 == Take(e.ring).0
    ensures e.pipein ==> res.0 != Nul
    ensures !e.pipein ==> res.0 in V && res.1.ring == e.ring && res.1.k == e.k + 1
  {
    if e.pipein then
      (Take(e.ring).0, Env(Take(e.ring).1, e.pipein, e.k))
    else
      var roll := Rand(oracle, e);
      (V[roll.0 % |V|], roll.1)
  }
}

=== FILE: input.dfy ===
/** The reader loop in `main`: when standard input is a pipe, each byte read
    is folded into the printable range and appended to the ring buffer. */
module Input {
  import opened CChars
  import opened RingBuffer

  /** Printable range every normalised byte lands in (except the one byte
      whose negation does not fit in a `char`). */
  predicate Printable(ch: CChar) {
    32 <= ch <= 126
  }

  /** Folds an input byte into the printable range: a negative byte is
      negated (in `char` arithmetic, so -128 stays -128), a control byte is
      shifted up by 32 and DEL becomes '~'. The result is never the ring
      buffer's empty sentinel. */
  function Normalize(ch: CChar): (r: CChar)
    ensures ch != -128 ==> Printable(r)
    ensures ch == -128 ==> r == -128
    ensures r != Nul
    ensures Printable(ch) ==> r == ch
  {
    var a := if ch < 0 then Wrap(-(ch as int)) else ch;
    var b := if 0 <= a < 32 then a + 32 else a;
    if b == 127 then b - 1 else b
  }

  /** Normalising twice is normalising once. */
  lemma NormalizeIdempotent(ch: CChar)
    ensures Normalize(Normalize(ch)) == Normalize(ch)
  {
  }

  /** The bytes Normalize leaves alone are exactly the printable ones and the
      unnegatable -128. */
  lemma NormalizeFixedPoints(ch: CChar)
    ensures Normalize(ch) == ch <==> Printable(ch) || ch == -128
  {
  }

  /** Normalize as a table over the byte's magnitude v, rather than as the
      chain of tests the reader performs. */
  lemma NormalizeTable(ch: CChar)
    requires ch != -128
    ensures var v := if ch < 0 then -(ch as int) else ch as int;
            Normalize(ch) as int == (if v < 32 then v + 32 else if v == 127 then 126 else v)
  {
  }

  /** What one `read` of one byte returned: a byte, end of input (0), or an
      error (-1). */
  datatype ReadResult = Got(ch: CChar) | Eof | Failed

  /** One pass of the loop in `main`. Without a pipe the loop only waits for
      signals. With a pipe, a byte is normalised and written; an error is
      truthy in the source's test, so the untouched `ch = 0` is normalised to
      a blank and written; end of input writes nothing. */
  function Ingest(r: Ring, pipein: bool, read: ReadResult): (r': Ring)
    requires r.Valid()
    ensures r'.Valid() && r'.ofr == r.ofr
    ensures !pipein || read.Eof? ==> r' == r
    ensures pipein && read.Got? ==> r' == Write(r, Normalize(read.ch))
    ensures pipein && read.Failed? ==> r' == Write(r, Space)
    ensures pipein && !read.Eof? ==> r'.buf[r.ofw] != Nul && r'.ofw == (r.ofw + 1) % BS
  {
    if !pipein then r
    else match read
      case Got(ch) => Write(r, Normalize(ch))
      case Failed => Write(r, Normalize(Nul))
      case Eof => r
  }

  /** Feeds a piped byte stream, every read a success, through the reader
      loop: the write cursor moves on one slot per byte and the read cursor
      stays where it was. */
  function IngestAll(r: Ring, bytes: seq<CChar>): (r': Ring)
    requires r.Valid()
    ensures r'.Valid() && r'.ofr == r.ofr && r'.ofw == Ahead(r.ofw, |bytes|)
    decreases |bytes|
  {
    if bytes == [] then r
    else
      CursorShift(r.ofw, |bytes|);
      IngestAll(Ingest(r, true, Got(bytes[0])), bytes[1..])
  }

  function NormalizeAll(bytes: seq<CChar>): (ns: seq<CChar>)
    ensures |ns| == |bytes|
    ensures forall i :: 0 <= i < |bytes| ==> ns[i] == Normalize(bytes[i])
  {
    seq(|bytes|, i requires 0 <= i < |bytes| => Normalize(bytes[i]))
  }

  lemma {:induction false} IngestAllWrites(r: Ring, bytes: seq<CChar>)
    requires r.Valid()
    ensures IngestAll(r, bytes) == WriteAll(r, NormalizeAll(bytes))
    decreases |bytes|
  {
    if bytes != [] {
      IngestAllWrites(Ingest(r, true, Got(bytes[0])), bytes[1..]);
      assert NormalizeAll(bytes)[1..] == NormalizeAll(bytes[1..]);
    }
  }

  /** Every piped byte reaches `get_char`: because no normalised byte is the
      empty sentinel, a reader that has caught up with the writer reads back
      the normalised bytes in arrival order, as long as no more than BS of
      them are pending. */
  lemma PipeRoundTrip(r: Ring, bytes: seq<CChar>)
    requires r.Valid() && r.ofr == r.ofw && |bytes| <= BS
    ensures TakeN(IngestAll(r, bytes), |bytes|).0 == NormalizeAll(bytes)
  {
    IngestAllWrites(r, bytes);
    Fifo(r, NormalizeAll(bytes));
  }

  /** A reader that has drained the piped bytes and then finds the slot
      after them empty reads a blank there. */
  lemma PipeThenBlank(r: Ring, bytes: seq<CChar>)
    requires r.Valid() && r.ofr == r.ofw && |bytes| < BS
    requires r.buf[Ahead(r.ofw, |bytes|)] == Nul
    ensures TakeN(IngestAll(r, bytes), |bytes| + 1).0 == NormalizeAll(bytes) + [Space]
  {
    IngestAllWrites(r, bytes);
    WriteThenDrain(r, NormalizeAll(bytes), IngestAll(r, bytes));
  }

  /** The bytes 'A', NUL, 0x1F and DEL piped into a fresh buffer come out as
      "A ?~", and a fifth read finds nothing and yields a blank. */
  lemma SampleInput()
    ensures TakeN(IngestAll(Blank, [65, 0, 31, 127]), 4).0 == [65, 32, 63, 126]
    ensures TakeN(IngestAll(Blank, [65, 0, 31, 127]), 5).0 == [65, 32, 63, 126, 32]
  {
    var bytes: seq<CChar> := [65, 0, 31, 127];
    assert NormalizeAll(bytes) == [65, 32, 63, 126];
    PipeRoundTrip(Blank, bytes);
    PipeThenBlank(Blank, bytes);
  }
}

=== FILE: render.dfy ===
/** The screen-level driver: `initTerm` (start-up and window resize) and the
    column loop of `print`, one timer tick at a time. */
module Render {
  import opened Glyphs
  import opened Terminal
  import opened Streaks

  /** What the terminal reports on `/dev/tty`, or that it could not be asked. */
  datatype Winsize = NoTerminal | Winsize(rows: nat, cols: nat)

  /** The animation state `print` owns: the row count `R` and one slot per
      column. */
  datatype Screen = Screen(rows: nat, slots: seq<Slot>)

  /** `initTerm` either sets up the screen or makes the process exit(1). */
  datatype Start = Aborted | Started(screen: Screen, draws: seq<Draw>)

  /** What a pass of the column loop yields. */
  datatype TickResult = TickResult(slots: seq<Slot>, draws: seq<Draw>, env: Env)

  predicate AllRunnable(slots: seq<Slot>) {
    forall i :: 0 <= i < |slots| ==> Runnable(slots[i])
  }

  predicate AllInv(slots: seq<Slot>, R: nat) {
    forall i :: 0 <= i < |slots| ==> SlotInv(slots[i], R)
  }

  /** Start-up, and the handler run on every window resize: without a
      terminal size the process stops; otherwise every column gets an empty
      slot (any old streaks are dropped), the cursor is hidden and the screen
      cleared. */
  function InitTerm(w: Winsize): (r: Start)
    ensures r.Aborted? <==> w.NoTerminal?
    ensures r.Started? ==>
              && r.screen.rows == w.rows
              && |r.screen.slots| == w.cols
              && (forall i :: 0 <= i < |r.screen.slots| ==> r.screen.slots[i] == Empty)
              && AllInv(r.screen.slots, r.screen.rows)
              && r.draws == [CursorOff, EraseScreen]
  {
    match w
    case NoTerminal => Aborted
    case Winsize(rows, cols) => Started(Screen(rows, seq(cols, _ => Empty)), [CursorOff, EraseScreen])
  }

  /** Processing column c: only slot c changes, and every draw is in
      column c. */
  function ColumnStep(slots: seq<Slot>, c: nat, R: nat, oracle: Oracle, e: Env): (r: TickResult)
    requires R >= 1 && e.Valid() && c < |slots| && AllRunnable(slots)
    ensures |r.slots| == |slots| && AllRunnable(r.slots)
    ensures forall j :: 0 <= j < |slots| && j != c ==> r.slots[j] == slots[j]
    ensures r.slots[c] == Step(slots[c], c, R, oracle, e).slot
    ensures r.draws == Step(slots[c], c, R, oracle, e).draws && r.env == Step(slots[c], c, R, oracle, e).env
    ensures InColumn(r.draws, c)
    ensures r.env.Valid() && ReadsOnly(e, r.env)
  {
    var st := Step(slots[c], c, R, oracle, e);
    TickResult(slots[c := st.slot], st.draws, st.env)
  }

  /** Processing one column keeps the streak invariant of every slot, and
      its draws stay on rows [0, R]. */
  lemma ColumnStepInv(slots: seq<Slot>, c: nat, R: nat, oracle: Oracle, e: Env)
    requires R >= 1 && e.Valid() && c < |slots| && AllRunnable(slots)
    ensures AllInv(slots, R) ==>
              var col := ColumnStep(slots, c, R, oracle, e);
              AllInv(col.slots, R) && RowsWithin(col.draws, 0, R + 1)
  {
    if AllInv(slots, R) {
      StepInv(slots[c], c, R, oracle, e);
    }
  }

  /** The column loop of `print` from column c on: columns are visited in
      increasing order, earlier slots are left alone, and every slot stays
      runnable. */
  function TickFrom(c: nat, slots: seq<Slot>, R: nat, oracle: Oracle, e: Env): (r: TickResult)
    requires R >= 1 && e.Valid() && c <= |slots| && AllRunnable(slots)
    ensures |r.slots| == |slots| && r.slots[..c] == slots[..c] && AllRunnable(r.slots)
    ensures r.env.Valid() && ReadsOnly(e, r.env)
    decreases |slots| - c
  {
    if c == |slots| then TickResult(slots, [], e)
    else
      var col := ColumnStep(slots, c, R, oracle, e);
      var rest := TickFrom(c + 1, col.slots, R, oracle, col.env);
      assert rest.slots[..c] == rest.slots[..c + 1][..c];
      assert col.slots[..c] == slots[..c];
      TickResult(rest.slots, col.draws + rest.draws, rest.env)
  }

  /** One column of the loop, then the rest. */
  lemma TickFromStep(c: nat, slots: seq<Slot>, R: nat, oracle: Oracle, e: Env)
    requires R >= 1 && e.Valid() && c < |slots| && AllRunnable(slots)
    ensures var col := ColumnStep(slots, c, R, oracle, e);
            var rest := TickFrom(c + 1, col.slots, R, oracle, col.env);
            TickFrom(c, slots, R, oracle, e) == TickResult(rest.slots, col.draws + rest.draws, rest.env)
  { }

  /** The draws of the column loop from column c on go left to right across
      the screen and touch only columns c and beyond. */
  lemma {:induction false} TickFromColumns(c: nat, slots: seq<Slot>, R: nat, oracle: Oracle, e: Env)
    requires R >= 1 && e.Valid() && c <= |slots| && AllRunnable(slots)
    ensures var r := TickFrom(c, slots, R, oracle, e);
            ColumnsWithin(r.draws, c, |slots|) && ColumnsOrdered(r.draws)
    decreases |slots| - c
  {
    if c < |slots| {
      var col := ColumnStep(slots, c, R, oracle, e);
      TickFromColumns(c + 1, col.slots, R, oracle, col.env);
      var rest := TickFrom(c + 1, col.slots, R, oracle, col.env);
      assert TickFrom(c, slots, R, oracle, e).draws == col.draws + rest.draws;
      OrderedAppend(col.draws, rest.draws, c, |slots|);
    }
  }

  /** The column loop from column c on keeps the streak invariant of every
      slot, and its draws stay on rows [0, R]. */
  lemma {:induction false} TickFromInv(c: nat, slots: seq<Slot>, R: nat, oracle: Oracle, e: Env)
    requires R >= 1 && e.Valid() && c <= |slots| && AllRunnable(slots) && AllInv(slots, R)
    ensures var r := TickFrom(c, slots, R, oracle, e);
            AllInv(r.slots, R) && RowsWithin(r.draws, 0, R + 1)
    decreases |slots| - c
  {
    if c < |slots| {
      var col := ColumnStep(slots, c, R, oracle, e);
      ColumnStepInv(slots, c, R, oracle, e);
      TickFromInv(c + 1, col.slots, R, oracle, col.env);
      var rest := TickFrom(c + 1, col.slots, R, oracle, col.env);
      assert TickFrom(c, slots, R, oracle, e) == TickResult(rest.slots, col.draws + rest.draws, rest.env);
      RowsWithinAppend(col.draws, rest.draws, 0, R + 1);
    }
  }

  /** One timer tick over the whole screen. */
  function Tick(s: Screen, oracle: Oracle, e: Env): (r: TickResult)
    requires s.rows >= 1 && e.Valid() && AllRunnable(s.slots)
    ensures |r.slots| == |s.slots| && ColumnsOrdered(r.draws)
    ensures r.env.Valid() && ReadsOnly(e, r.env)
    ensures AllInv(s.slots, s.rows) ==> AllInv(r.slots, s.rows) && RowsWithin(r.draws, 0, s.rows + 1)
  {
    TickFromColumns(0, s.slots, s.rows, oracle, e);
    if AllInv(s.slots, s.rows) then
      TickFromInv(0, s.slots, s.rows, oracle, e);
      TickFrom(0, s.slots, s.rows, oracle, e)
    else
      TickFrom(0, s.slots, s.rows, oracle, e)
  }

  /** `print` as the source writes it, a loop over the columns that replaces
      one slot per pass; it computes exactly what Tick does. */
  method Print(slots: seq<Slot>, R: nat, oracle: Oracle, e: Env) returns (slots': seq<Slot>, draws: seq<Draw>, e': Env)
    requires R >= 1 && e.Valid() && AllRunnable(slots)
    ensures TickResult(slots', draws, e') == TickFrom(0, slots, R, oracle, e)
    ensures |slots'| == |slots|
  {
    ghost var whole := TickFrom(0, slots, R, oracle, e);
    ghost var now := whole;
    slots', draws, e' := slots, [], e;
    var c := 0;
    while c < |slots'|
      invariant c <= |slots'| == |slots|
      invariant e'.Valid() && AllRunnable(slots')
      invariant now == TickFrom(c, slots', R, oracle, e')
      invariant whole == TickResult(now.slots, draws + now.draws, now.env)
      decreases |slots'| - c
    {
      var col := ColumnStep(slots', c, R, oracle, e');
      TickFromStep(c, slots', R, oracle, e');
      ghost var rest := TickFrom(c + 1, col.slots, R, oracle, col.env);
      assert draws + (col.draws + rest.draws) == (draws + col.draws) + rest.draws;
      slots', draws, e' := col.slots, draws + col.draws, col.env;
      c := c + 1;
      now := rest;
    }
    assert draws + [] == draws;
  }

  /** If every creation trial succeeds, a pass over empty slots from column c
      on puts a newborn streak in each of them and draws nothing: streaks are
      not advanced in the tick that creates them. */
  lemma {:induction false} CreationTickFrom(c: nat, slots: seq<Slot>, R: nat, oracle: Oracle, e: Env)
    requires R >= 1 && e.Valid() && c <= |slots| && AllRunnable(slots)
    requires forall j :: c <= j < |slots| ==> slots[j] == Empty
    requires forall i: nat :: oracle(i) % 100 < NewSeqProb
    ensures var r := TickFrom(c, slots, R, oracle, e);
            && r.draws == []
            && forall j :: c <= j < |slots| ==>
                 r.slots[j].Live? && r.slots[j].streak.start == 0 && r.slots[j].streak.end == 0
    decreases |slots| - c
  {
    if c < |slots| {
      var born := Create(R, oracle, e);
      assert oracle(e.k) % 100 < NewSeqProb;
      assert Step(slots[c], c, R, oracle, e) == born;
      var col := ColumnStep(slots, c, R, oracle, e);
      TickFromStep(c, slots, R, oracle, e);
      CreationTickFrom(c + 1, col.slots, R, oracle, col.env);
      var rest := TickFrom(c + 1, col.slots, R, oracle, col.env);
      assert rest.slots[..c + 1][c] == col.slots[c];
    }
  }

  /** On a freshly initialised screen, a first tick in which every creation
      trial succeeds leaves a newborn streak with start = end = 0 in every
      column and draws nothing. */
  lemma CreationTick(w: Winsize, oracle: Oracle, e: Env)
    requires w.Winsize? && w.rows >= 1 && e.Valid()
    requires forall i: nat :: oracle(i) % 100 < NewSeqProb
    ensures var r := Tick(InitTerm(w).screen, oracle, e);
            && r.draws == []
            && |r.slots| == w.cols
            && forall j :: 0 <= j < w.cols ==>
                 r.slots[j].Live? && r.slots[j].streak.start == 0 && r.slots[j].streak.end == 0
  {
    CreationTickFrom(0, InitTerm(w).screen.slots, w.rows, oracle, e);
  }
}

=== FILE: ring.dfy ===
/** The circular input buffer `buf` shared by the reader loop in `main` and
    by `get_char`: a write cursor `ofw`, a read cursor `ofr`, and the zero
    byte as the "slot holds nothing" sentinel. */
module RingBuffer {
  import opened CChars

  /** Capacity of the buffer (the source's `BS`). */
  const BS: nat := 102400

  datatype Ring = Ring(buf: seq<CChar>, ofw: nat, ofr: nat) {
    predicate Valid() {
      |buf| == BS && ofw < BS && ofr < BS
    }
  }

  /** The buffer as the program starts: a zero-initialised global with both
      cursors at slot 0. */
  const Blank: Ring := Ring(seq(BS, _ => Nul), 0, 0)

  /** Distance from cursor `o` forward to slot `p`, going round the ring. */
  function Offset(p: nat, o: nat): nat
  {
    (p - o) % BS
  }

  /** The slot n places on from cursor o, going round the ring. */
  function Ahead(o: nat, n: nat): nat
  {
    (o + n) % BS
  }

  /** Stores one byte at the write cursor and moves the cursor on, wrapping
      at the end; an unread byte in that slot is overwritten. */
  function Write(r: Ring, ch: CChar): (r': Ring)
    requires r.Valid()
    ensures r'.Valid()
    ensures r'.buf[r.ofw] == ch
    ensures forall p :: 0 <= p < BS && p != r.ofw ==> r'.buf[p] == r.buf[p]
    ensures r'.ofw == (r.ofw + 1) % BS && r'.ofr == r.ofr
  {
    Ring(r.buf[r.ofw := ch], (r.ofw + 1) % BS, r.ofr)
  }

  /** The pipe-mode branch of `get_char`: a nonzero byte at the read cursor is
      returned, its slot cleared and the cursor advanced; a zero slot yields a
      blank and leaves the buffer alone. The sentinel is never returned. */
  function Take(r: Ring): (res: (CChar, Ring))
    requires r.Valid()
    ensures res.1.Valid() && res.0 != Nul
    ensures r.buf[r.ofr] != Nul ==>
              && res.0 == r.buf[r.ofr]
              && res.1.buf == r.buf[r.ofr := Nul]
              && res.1.ofr == (r.ofr + 1) % BS
              && res.1.ofw == r.ofw
    ensures r.buf[r.ofr] == Nul ==> res == (Space, r)
  {
    if r.buf[r.ofr] != Nul then
      (r.buf[r.ofr], Ring(r.buf[r.ofr := Nul], r.ofw, (r.ofr + 1) % BS))
    else
      (Space, r)
  }

  /** Writes `bs` one byte after another. */
  function WriteAll(r: Ring, bs: seq<CChar>): (r': Ring)
    requires r.Valid()
    ensures r'.Valid() && r'.ofr == r.ofr
    decreases |bs|
  {
    if bs == [] then r else WriteAll(Write(r, bs[0]), bs[1..])
  }

  /** Performs `k` reads, collecting the bytes they return. */
  function TakeN(r: Ring, k: nat): (res: (seq<CChar>, Ring))
    requires r.Valid()
    ensures |res.0| == k && res.1.Valid()
    decreases k
  {
    if k == 0 then ([], r)
    else
      var (ch, r1) := Take(r);
      var (rest, r2) := TakeN(r1, k - 1);
      ([ch] + rest, r2)
  }

  /** Moving a cursor on by one slot shortens every forward distance by one,
      except to the slot the cursor leaves, which becomes the farthest. */
  lemma OffsetStep(p: nat, o: nat)
    requires p < BS && o < BS
    ensures Offset(p, (o + 1) % BS) == if p == o then BS - 1 else Offset(p, o) - 1
  {
  }

  /** Moving a cursor one slot and then n - 1 more is moving it n slots. */
  lemma CursorShift(o: nat, n: nat)
    requires o < BS && n >= 1
    ensures Ahead((o + 1) % BS, n - 1) == Ahead(o, n)
  {
    if o + 1 == BS {
      assert (o + 1) % BS == 0;
    }
  }

  /** Reading k + 1 bytes is reading k bytes and then one more. */
  lemma {:induction false} TakeNSnoc(r: Ring, k: nat)
    requires r.Valid()
    ensures TakeN(r, k + 1).0 == TakeN(r, k).0 + [Take(TakeN(r, k).1).0]
    ensures TakeN(r, k + 1).1 == Take(TakeN(r, k).1).1
    decreases k
  {
    if k > 0 {
      TakeNSnoc(Take(r).1, k - 1);
    }
  }

  /** k reads that leave `mid`, then one more read of `mid` returning `ch`:
      together they are k + 1 reads. */
  lemma ReadOneMore(r: Ring, k: nat, mid: Ring, ch: CChar, r2: Ring)
    requires r.Valid()
    requires TakeN(r, k).1 == mid && Take(mid) == (ch, r2)
    ensures TakeN(r, k + 1) == (TakeN(r, k).0 + [ch], r2)
  {
    TakeNSnoc(r, k);
  }

  /** After writing `bs` from cursor `o`, the slot at distance i < |bs| holds
      bs[i] and every other slot is as before. */
  lemma {:induction false} WriteAllPlaces(r: Ring, bs: seq<CChar>)
    requires r.Valid() && |bs| <= BS
    ensures WriteAll(r, bs).ofw == Ahead(r.ofw, |bs|)
    ensures forall p :: 0 <= p < BS ==>
              WriteAll(r, bs).buf[p] ==
                (if Offset(p, r.ofw) < |bs| then bs[Offset(p, r.ofw)] else r.buf[p])
    decreases |bs|
  {
    if bs != [] {
      var r1 := Write(r, bs[0]);
      var tail := bs[1..];
      WriteAllPlaces(r1, tail);
      var w := WriteAll(r1, tail);
      assert WriteAll(r, bs) == w;
      CursorShift(r.ofw, |bs|);
      forall p | 0 <= p < BS
        ensures w.buf[p] == (if Offset(p, r.ofw) < |bs| then bs[Offset(p, r.ofw)] else r.buf[p])
      {
        OffsetStep(p, r.ofw);
        if p == r.ofw {
          assert Offset(p, r.ofw) == 0 && Offset(p, r1.ofw) == BS - 1;
          assert w.buf[p] == r1.buf[p] == bs[0];
        } else {
          assert Offset(p, r1.ofw) == Offset(p, r.ofw) - 1;
          assert r1.buf[p] == r.buf[p];
        }
      }
    }
  }

  /** One read from a ring whose next slots hold nonzero bytes bs returns
      bs[0] and leaves the rest of bs pending at the moved cursor. */
  lemma TakeFirst(r: Ring, bs: seq<CChar>)
    requires r.Valid() && 0 < |bs| <= BS
    requires bs[0] != Nul
    requires forall p :: 0 <= p < BS && Offset(p, r.ofr) < |bs| ==> r.buf[p] == bs[Offset(p, r.ofr)]
    ensures Take(r) == (bs[0], Ring(r.buf[r.ofr := Nul], r.ofw, (r.ofr + 1) % BS))
    ensures forall p :: 0 <= p < BS && Offset(p, Take(r).1.ofr) < |bs| - 1 ==>
              Take(r).1.buf[p] == bs[1..][Offset(p, Take(r).1.ofr)]
  {
    assert Offset(r.ofr, r.ofr) == 0;
    var r1 := Take(r).1;
    forall p | 0 <= p < BS && Offset(p, r1.ofr) < |bs| - 1
      ensures r1.buf[p] == bs[1..][Offset(p, r1.ofr)]
    {
      OffsetStep(p, r.ofr);
      assert p != r.ofr;
    }
  }

  /** Slots at distance at least n from the read cursor survive a read
      followed by reads that spare the slots at distance n - 1 from the moved
      cursor. */
  lemma TakeFrame(r: Ring, r2: Ring, n: nat)
    requires r.Valid() && r2.Valid() && n >= 1
    requires forall p :: 0 <= p < BS && Offset(p, (r.ofr + 1) % BS) >= n - 1 ==> r2.buf[p] == r.buf[r.ofr := Nul][p]
    ensures forall p :: 0 <= p < BS && Offset(p, r.ofr) >= n ==> r2.buf[p] == r.buf[p]
  {
    forall p | 0 <= p < BS && Offset(p, r.ofr) >= n
      ensures r2.buf[p] == r.buf[p]
    {
      OffsetStep(p, r.ofr);
    }
  }

  /** Reading k bytes from a ring whose next k slots hold nonzero bytes bs
      returns exactly bs, in order. */
  lemma {:induction false} TakeNReads(r: Ring, bs: seq<CChar>)
    requires r.Valid() && |bs| <= BS
    requires forall i :: 0 <= i < |bs| ==> bs[i] != Nul
    requires forall p :: 0 <= p < BS && Offset(p, r.ofr) < |bs| ==> r.buf[p] == bs[Offset(p, r.ofr)]
    ensures TakeN(r, |bs|).0 == bs
    ensures TakeN(r, |bs|).1.ofr == Ahead(r.ofr, |bs|)
    ensures forall p :: 0 <= p < BS && Offset(p, r.ofr) >= |bs| ==> TakeN(r, |bs|).1.buf[p] == r.buf[p]
    decreases |bs|
  {
    if bs != [] {
      TakeFirst(r, bs);
      var r1 := Take(r).1;
      var tail := bs[1..];
      TakeNReads(r1, tail);
      var rest := TakeN(r1, |tail|);
      assert TakeN(r, |bs|) == ([bs[0]] + rest.0, rest.1);
      CursorShift(r.ofr, |bs|);
      assert rest.1.ofr == Ahead(r1.ofr, |tail|) && r1.ofr == (r.ofr + 1) % BS;
      TakeFrame(r, rest.1, |bs|);
      assert TakeN(r, |bs|).1.ofr == Ahead(r.ofr, |bs|);
    } else {
      assert r.ofr % BS == r.ofr;
      assert TakeN(r, |bs|).1.ofr == Ahead(r.ofr, |bs|);
    }
  }

  /** The slot n places on from cursor o is at forward distance n from it. */
  lemma OffsetAhead(o: nat, n: nat)
    requires o < BS && n < BS
    ensures Offset(Ahead(o, n), o) == n
  {
    if o + n < BS {
      assert (o + n) % BS == o + n;
    } else {
      assert (o + n) % BS == o + n - BS;
      assert (n - BS) % BS == n;
    }
  }

  /** Once the pending bytes are read, a read of the empty slot after them
      yields a blank. */
  lemma DrainThenBlank(r: Ring, bs: seq<CChar>)
    requires r.Valid() && |bs| < BS
    requires forall i :: 0 <= i < |bs| ==> bs[i] != Nul
    requires forall p :: 0 <= p < BS && Offset(p, r.ofr) < |bs| ==> r.buf[p] == bs[Offset(p, r.ofr)]
    requires r.buf[Ahead(r.ofr, |bs|)] == Nul
    ensures TakeN(r, |bs| + 1).0 == bs + [Space]
  {
    TakeNReads(r, bs);
    TakeNSnoc(r, |bs|);
    var after := TakeN(r, |bs|).1;
    var q := Ahead(r.ofr, |bs|);
    OffsetAhead(r.ofr, |bs|);
    assert after.ofr == q && after.buf[q] == r.buf[q];
  }

  /** After a run of fewer than BS nonzero bytes is written from a caught-up
      reader's cursor, reading the run and one more slot, which was empty
      before the writes, gives the run followed by a blank. */
  lemma WriteThenDrain(r: Ring, bs: seq<CChar>, w: Ring)
    requires r.Valid() && r.ofr == r.ofw && |bs| < BS && w == WriteAll(r, bs)
    requires forall i :: 0 <= i < |bs| ==> bs[i] != Nul
    requires r.buf[Ahead(r.ofw, |bs|)] == Nul
    ensures TakeN(w, |bs| + 1).0 == bs + [Space]
  {
    WriteAllPlaces(r, bs);
    OffsetAhead(r.ofw, |bs|);
    DrainThenBlank(w, bs);
  }

  /** First in, first out: once the reader has caught up with the writer, up to
      BS nonzero bytes written are read back in the order they were written. */
  lemma Fifo(r: Ring, bs: seq<CChar>)
    requires r.Valid() && r.ofr == r.ofw && |bs| <= BS
    requires forall i :: 0 <= i < |bs| ==> bs[i] != Nul
    ensures TakeN(WriteAll(r, bs), |bs|).0 == bs
  {
    WriteAllPlaces(r, bs);
    TakeNReads(WriteAll(r, bs), bs);
  }
}

=== FILE: streaks.dfy ===
/** The per-column streak of `print`: one optional falling streak per column,
    advanced once every `speed` timer ticks. */
module Streaks {
  import opened CChars
  import opened Glyphs
  import opened Terminal
  import opened RingBuffer

  const SpeedMin: nat := 6
  const SpeedMax: nat := 16
  const DarkProb: nat := 75
  const NewSeqProb: nat := 20
  const LetterChangeProb: nat := 25

  /** Rows [start, end) are occupied: `start` is the trailing (erasing) edge,
      `end` the row the next glyph goes to. `n` is the number of advance steps
      left before the trailing edge starts to move, `counter` counts ticks
      modulo `speed`, and `last` is the newest glyph drawn. */
  datatype Streak = Streak(start: nat, end: nat, n: nat, speed: nat, counter: nat, last: CChar)

  /** A column slot of `S`: a null pointer or a streak. */
  datatype Slot = Empty | Live(streak: Streak)

  /** What processing one column yields: the slot to store back, the draws
      emitted, and the shared state after them. */
  datatype StepResult = StepResult(slot: Slot, draws: seq<Draw>, env: Env)

  function Min(a: int, b: int): int {
    if a < b then a else b
  }

  /** The shape of a streak between advance steps on a screen of R rows: the
      edges are ordered and at most one row below the screen, and the two are
      equal only for a streak that has not advanced yet. */
  predicate Ordered(s: Streak, R: nat) {
    && s.start <= s.end <= R + 1
    && (s.start < s.end || (s.end == 0 && s.n >= 1))
  }

  /** Everything that holds of a stored streak. */
  predicate Inv(s: Streak, R: nat) {
    Ordered(s, R) && SpeedMin <= s.speed <= SpeedMax && s.counter < s.speed
  }

  predicate SlotInv(slot: Slot, R: nat) {
    slot.Live? ==> Inv(slot.streak, R)
  }

  /** A slot the tick can process without dividing by zero. */
  predicate Runnable(slot: Slot) {
    slot.Live? ==> slot.streak.speed > 0
  }

  /** Advance steps a streak has left: its remaining budget plus the rows its
      trailing edge still has to cross, the one below the screen included. */
  function Measure(s: Streak, R: nat): nat
    requires s.start <= R + 1
  {
    s.n + (R + 1 - s.start)
  }

  /** The colours a body redraw uses: the dim green, or one of the seven
      bright colours at normal weight. */
  predicate RedrawColour(d: Draw) {
    d.Attr? ==> (d.fg == Green && d.weight == BoldAttr) || (Red <= d.fg <= White && d.weight == NormalAttr)
  }

  /** The empty-slot branch: one random trial decides whether a streak is
      born; a newborn streak sits above row 0 with nothing drawn yet, a speed
      in [SpeedMin, SpeedMax] and a budget in [1, R]. */
  function Create(R: nat, oracle: Oracle, e: Env): (r: StepResult)
    requires R >= 1
    ensures r.draws == [] && r.env.ring == e.ring && ReadsOnly(e, r.env)
    ensures r.slot.Live? <==> oracle(e.k) % 100 < NewSeqProb
    ensures r.slot.Live? ==>
              var s := r.slot.streak;
              && s.start == 0 && s.end == 0 && s.counter == 0 && s.last == Nul
              && SpeedMin <= s.speed <= SpeedMax && 1 <= s.n <= R
    ensures SlotInv(r.slot, R)
  {
    var trial := Rand(oracle, e);
    if trial.0 % 100 < NewSeqProb then
      var speed := Rand(oracle, trial.1);
      var budget := Rand(oracle, speed.1);
      var s := Streak(0, 0, budget.0 % R + 1, speed.0 % (SpeedMax - SpeedMin + 1) + SpeedMin, 0, Nul);
      StepResult(Live(s), [], budget.1)
    else
      StepResult(Empty, [], trial.1)
  }

  /** One redrawn body cell: a colour (dim green on a 75% trial, otherwise a
      random bright colour), the cursor move, and a glyph from `get_char`. */
  function Paint(row: nat, c: nat, oracle: Oracle, e: Env): (p: (seq<Draw>, Env))
    requires e.Valid()
    ensures p.1.Valid() && ReadsOnly(e, p.1)
    ensures |p.0| == 3 && p.0[0].Attr? && RedrawColour(p.0[0]) && p.0[1] == Move(row, c) && p.0[2].Put?
    ensures e.pipein ==> p.0[2] == Put(Take(e.ring).0) && p.1.ring == Take(e.ring).1
    ensures !e.pipein ==> p.0[2].ch in V
  {
    var dark := Rand(oracle, e);
    var hue := Rand(oracle, dark.1);
    var colour := if dark.0 % 100 < DarkProb then Attr(Green, BoldAttr) else Attr(Red + hue.0 % 7, NormalAttr);
    var glyph := GetChar(oracle, if dark.0 % 100 < DarkProb then dark.1 else hue.1);
    ([colour, Move(row, c), Put(glyph.0)], glyph.1)
  }

  /** The body redraw of an advance step, from `row` down to the last visible
      occupied row: each row is redrawn on a random trial, the row just above
      `end` always. All draws are in column c, within the occupied visible
      rows, top to bottom. */
  function Redraw(row: nat, end: nat, c: nat, R: nat, oracle: Oracle, e: Env): (res: (seq<Draw>, Env))
    requires e.Valid()
    ensures res.1.Valid() && ReadsOnly(e, res.1)
    ensures InColumn(res.0, c) && RowsWithin(res.0, row, Min(R, end)) && RowsIncreasing(res.0)
    ensures forall i :: 0 <= i < |res.0| ==> RedrawColour(res.0[i])
    decreases Min(R, end) - row
  {
    if row >= Min(R, end) then ([], e)
    else
      var change := Rand(oracle, e);
      if change.0 % 100 < LetterChangeProb || row == end - 1 then
        var cell := Paint(row, c, oracle, change.1);
        var rest := Redraw(row + 1, end, c, R, oracle, cell.1);
        RedrawCell(cell.0, row, c, rest.0, Min(R, end));
        (cell.0 + rest.0, rest.1)
      else
        Redraw(row + 1, end, c, R, oracle, change.1)
  }

  /** One redrawn cell on top of the redraw of the rows below it keeps the
      redraw's column, rows, order and colours. */
  lemma RedrawCell(cell: seq<Draw>, row: nat, c: nat, rest: seq<Draw>, hi: int)
    requires |cell| == 3 && cell[0].Attr? && RedrawColour(cell[0]) && cell[1] == Move(row, c) && cell[2].Put?
    requires row < hi
    requires InColumn(rest, c) && RowsWithin(rest, row + 1, hi) && RowsIncreasing(rest)
    requires forall i :: 0 <= i < |rest| ==> RedrawColour(rest[i])
    ensures var ds := cell + rest;
            && InColumn(ds, c) && RowsWithin(ds, row, hi) && RowsIncreasing(ds)
            && (forall i :: 0 <= i < |ds| ==> RedrawColour(ds[i]))
  {
    var ds := cell + rest;
    forall i | 3 <= i < |ds|
      ensures ds[i] == rest[i - 3]
    { }
    forall i, j | 0 <= i < j < |ds| && ds[i].Move? && ds[j].Move?
      ensures ds[i].row < ds[j].row
    {
      if i >= 3 {
        assert rest[i - 3] == ds[i] && rest[j - 3] == ds[j];
      } else {
        assert ds[j] == rest[j - 3];
      }
    }
  }

  /** The row just above the leading edge is always redrawn when it is on
      screen and not above `row`. */
  lemma {:induction false} RedrawReachesEdge(row: nat, end: nat, c: nat, R: nat, oracle: Oracle, e: Env)
    requires e.Valid() && row < end <= R
    ensures Move(end - 1, c) in Redraw(row, end, c, R, oracle, e).0
    decreases end - row
  {
    var change := Rand(oracle, e);
    if change.0 % 100 < LetterChangeProb || row == end - 1 {
      var cell := Paint(row, c, oracle, change.1);
      var rest := Redraw(row + 1, end, c, R, oracle, cell.1);
      assert Redraw(row, end, c, R, oracle, e).0 == cell.0 + rest.0;
      if row < end - 1 {
        RedrawReachesEdge(row + 1, end, c, R, oracle, cell.1);
        InAppend(Move(end - 1, c), cell.0, rest.0);
      } else {
        assert (cell.0 + rest.0)[1] == Move(end - 1, c);
      }
    } else {
      assert Redraw(row, end, c, R, oracle, e) == Redraw(row + 1, end, c, R, oracle, change.1);
      RedrawReachesEdge(row + 1, end, c, R, oracle, change.1);
    }
  }

  /** The colour of a redrawn cell follows its trials: dim green exactly
      when the first outcome falls under DarkProb, otherwise the bright
      colour the second outcome picks among the seven. */
  lemma PaintColour(row: nat, c: nat, oracle: Oracle, e: Env)
    requires e.Valid()
    ensures var p := Paint(row, c, oracle, e);
            && (p.0[0] == Attr(Green, BoldAttr) <==> oracle(e.k) % 100 < DarkProb)
            && (oracle(e.k) % 100 >= DarkProb ==> p.0[0] == Attr(Red + oracle(e.k + 1) % 7, NormalAttr))
  {
  }

  /** A visible occupied row is redrawn exactly when its letter-change trial
      succeeds or it is the row just above the leading edge. */
  lemma RedrawTrial(row: nat, end: nat, c: nat, R: nat, oracle: Oracle, e: Env)
    requires e.Valid() && row < Min(R, end)
    ensures Move(row, c) in Redraw(row, end, c, R, oracle, e).0 <==> oracle(e.k) % 100 < LetterChangeProb || row == end - 1
  {
    var change := Rand(oracle, e);
    if change.0 % 100 < LetterChangeProb || row == end - 1 {
      var cell := Paint(row, c, oracle, change.1);
      var rest := Redraw(row + 1, end, c, R, oracle, cell.1);
      assert Redraw(row, end, c, R, oracle, e).0 == cell.0 + rest.0;
      assert (cell.0 + rest.0)[1] == Move(row, c);
    } else {
      var rest := Redraw(row + 1, end, c, R, oracle, change.1);
      assert Redraw(row, end, c, R, oracle, e).0 == rest.0;
      forall k | 0 <= k < |rest.0|
        ensures rest.0[k] != Move(row, c)
      {
        assert rest.0[k].Move? ==> row + 1 <= rest.0[k].row;
      }
    }
  }

  /** The body redraw is a run of whole cells, and each redrawn cell's glyph
      comes from its own `get_char` call: from a pipe the glyphs are the
      next pending bytes of the ring buffer in order (a blank once it runs
      dry), and the buffer is left as those reads leave it; otherwise every
      glyph is a member of `V`. */
  lemma {:induction false} RedrawGlyphs(row: nat, end: nat, c: nat, R: nat, oracle: Oracle, e: Env)
    requires e.Valid()
    ensures var res := Redraw(row, end, c, R, oracle, e);
            var g := Drawn(res.0);
            && Cells(res.0)
            && (e.pipein ==> g == TakeN(e.ring, |g|).0 && res.1.ring == TakeN(e.ring, |g|).1)
            && (!e.pipein ==> forall i :: 0 <= i < |g| ==> g[i] in V)
    decreases Min(R, end) - row
  {
    if row < Min(R, end) {
      var change := Rand(oracle, e);
      if change.0 % 100 < LetterChangeProb || row == end - 1 {
        var cell := Paint(row, c, oracle, change.1);
        var rest := Redraw(row + 1, end, c, R, oracle, cell.1);
        RedrawGlyphs(row + 1, end, c, R, oracle, cell.1);
        var ds := cell.0 + rest.0;
        assert Redraw(row, end, c, R, oracle, e) == (ds, rest.1);
        assert ds[3..] == rest.0;
        var g := Drawn(rest.0);
        assert Drawn(ds) == [cell.0[2].ch] + g;
        assert Cells(ds);
        if e.pipein {
          var first := Take(e.ring);
          assert cell.0[2].ch == first.0 && cell.1.ring == first.1;
          assert TakeN(e.ring, 1 + |g|) == ([first.0] + TakeN(first.1, |g|).0, TakeN(first.1, |g|).1);
        }
      } else {
        assert Redraw(row, end, c, R, oracle, e) == Redraw(row + 1, end, c, R, oracle, change.1);
        RedrawGlyphs(row + 1, end, c, R, oracle, change.1);
      }
    }
  }

  /** The trailing-edge erase of an advance step: once the budget is spent,
      the trailing cell is blanked. */
  function Erase(s: Streak, c: nat): (ds: seq<Draw>)
    ensures InColumn(ds, c) && RowsWithin(ds, s.start, s.start + 1)
    ensures s.n == 0 <==> Move(s.start, c) in ds
    ensures forall i :: 0 <= i < |ds| ==> !ds[i].Attr? && (ds[i].Put? ==> ds[i].ch == Space && i > 0 && ds[i - 1].Move?)
    ensures s.n == 0 ==> |ds| == 2 && ds[1] == Put(Space)
  {
    if s.n == 0 then [Move(s.start, c), Put(Space)] else []
  }

  /** What the leading-edge stage of an advance step yields. */
  datatype Growth = Growth(draws: seq<Draw>, end: nat, last: CChar, env: Env)

  /** The leading-edge stage of an advance step: while the leading edge is on
      screen, a new glyph from `get_char` is drawn there in white and the edge
      moves down one row; below the screen nothing happens. */
  function Grow(end: nat, last: CChar, c: nat, R: nat, oracle: Oracle, e: Env): (g: Growth)
    requires e.Valid()
    ensures g.env.Valid() && ReadsOnly(e, g.env) && InColumn(g.draws, c)
    ensures end < R ==> g.end == end + 1 && g.draws == [Attr(White, NormalAttr), Move(end, c), Put(g.last)]
    ensures RowsWithin(g.draws, end, end + 1)
    ensures end < R && e.pipein ==> g.last == Take(e.ring).0 && g.env.ring == Take(e.ring).1
    ensures end < R && !e.pipein ==> g.last in V
    ensures end >= R ==> g == Growth([], end, last, e)
  {
    if end < R then
      var glyph := GetChar(oracle, e);
      Growth([Attr(White, NormalAttr), Move(end, c), Put(glyph.0)], end + 1, glyph.0, glyph.1)
    else
      Growth([], end, last, e)
  }

  /** The row the leading-edge stage starts from: an edge on row R, just
      below the screen, first moves one further down. */
  function Edge(s: Streak, R: nat): nat {
    if s.end == R then s.end + 1 else s.end
  }

  /** One advance step, taken when the counter wraps to zero: redraw the
      body, let the leading edge pass the bottom, erase the trailing cell once
      the budget is spent, draw a new leading glyph while on screen, spend one
      unit of budget, and retire the streak when its edges meet. */
  function Advance(s: Streak, c: nat, R: nat, oracle: Oracle, e: Env): (r: StepResult)
    requires e.Valid()
    ensures r.env.Valid() && ReadsOnly(e, r.env) && InColumn(r.draws, c)
    ensures s.end < R ==> Move(s.end, c) in r.draws
    ensures r.slot.Live? ==>
              var t := r.slot.streak;
              && t.speed == s.speed && t.counter == s.counter
              && (s.n > 0 ==> t.n == s.n - 1) && (s.n == 0 ==> t.n == 0)
              && (s.n == 0 ==> t.start == s.start + 1) && (s.n > 0 ==> t.start == s.start)
              && t.end == (if s.end <= R then s.end + 1 else s.end)
              && t.start != t.end
  {
    var body := Redraw(s.start, s.end, c, R, oracle, e);
    var grow := Grow(Edge(s, R), s.last, c, R, oracle, body.1);
    var t := s.(start := if s.n == 0 then s.start + 1 else s.start,
                end := grow.end,
                n := if s.n > 0 then s.n - 1 else s.n,
                last := grow.last);
    InColumnAppend(body.0, Erase(s, c), c);
    InColumnAppend(body.0 + Erase(s, c), grow.draws, c);
    StepResult(if t.start == t.end then Empty else Live(t), body.0 + Erase(s, c) + grow.draws, grow.env)
  }

  /** An advance step is its three stages in the source's order: the body
      redraw from the trailing edge down, then the trailing-edge erase, then
      the leading-edge stage on the shared state the redraw leaves. */
  lemma AdvanceStages(s: Streak, c: nat, R: nat, oracle: Oracle, e: Env)
    requires e.Valid()
    ensures var body := Redraw(s.start, s.end, c, R, oracle, e);
            var grow := Grow(Edge(s, R), s.last, c, R, oracle, body.1);
            && Advance(s, c, R, oracle, e).draws == body.0 + Erase(s, c) + grow.draws
            && Advance(s, c, R, oracle, e).env == grow.env
  {
  }

  /** The body redraw of an advance step always repaints the row just above
      the leading edge when it is on screen. */
  lemma AdvanceBodyEdge(s: Streak, c: nat, R: nat, oracle: Oracle, e: Env)
    requires e.Valid() && Ordered(s, R) && s.start < s.end <= R
    ensures Move(s.end - 1, c) in Advance(s, c, R, oracle, e).draws
  {
    var body := Redraw(s.start, s.end, c, R, oracle, e);
    var grow := Grow(Edge(s, R), s.last, c, R, oracle, body.1);
    RedrawReachesEdge(s.start, s.end, c, R, oracle, e);
    var k :| 0 <= k < |body.0| && body.0[k] == Move(s.end - 1, c);
    assert Advance(s, c, R, oracle, e).draws == body.0 + Erase(s, c) + grow.draws;
    assert (body.0 + Erase(s, c) + grow.draws)[k] == Move(s.end - 1, c);
  }

  /** No cursor move in ds from index `from` on goes to row `row`. */
  predicate NoMoveTo(ds: seq<Draw>, row: int, from: nat) {
    forall j :: from <= j < |ds| && ds[j].Move? ==> ds[j].row != row
  }

  /** Some blank is put on (row, c), and no later draw returns to that row:
      the cell stays blank. */
  predicate BlankedLast(ds: seq<Draw>, row: int, c: int) {
    exists i :: 0 <= i < |ds| - 1 && ds[i] == Move(row, c) && ds[i + 1] == Put(Space) && NoMoveTo(ds, row, i + 2)
  }

  /** Once the budget is spent, the erase comes after the body redraw and no
      later draw of the step goes back to the trailing row, so the trailing
      cell is left blank. */
  lemma AdvanceEraseLast(s: Streak, c: nat, R: nat, oracle: Oracle, e: Env)
    requires e.Valid() && Ordered(s, R) && s.n == 0
    ensures BlankedLast(Advance(s, c, R, oracle, e).draws, s.start, c)
  {
    var body := Redraw(s.start, s.end, c, R, oracle, e);
    var grow := Grow(Edge(s, R), s.last, c, R, oracle, body.1);
    var ds := body.0 + Erase(s, c) + grow.draws;
    assert Advance(s, c, R, oracle, e).draws == ds;
    var i := |body.0|;
    assert ds[i] == Move(s.start, c) && ds[i + 1] == Put(Space);
    forall j | i + 2 <= j < |ds| && ds[j].Move?
      ensures ds[j].row != s.start
    {
      assert ds[j] == grow.draws[j - i - 2];
    }
    assert NoMoveTo(ds, s.start, i + 2);
  }

  /** The edges of an advance step: once the budget is spent, a blank is put
      on the trailing edge's row; a leading glyph drawn on screen is the
      last draw and is kept as the streak's newest glyph, and without one the
      newest glyph stays as it was. */
  lemma AdvanceEdges(s: Streak, c: nat, R: nat, oracle: Oracle, e: Env)
    requires e.Valid()
    ensures var r := Advance(s, c, R, oracle, e);
            && (s.n == 0 ==> exists i :: 0 <= i < |r.draws| - 1 && r.draws[i] == Move(s.start, c) && r.draws[i + 1] == Put(Space))
            && (r.slot.Live? && s.end < R ==> r.draws[|r.draws| - 1] == Put(r.slot.streak.last))
            && (r.slot.Live? && s.end >= R ==> r.slot.streak.last == s.last)
  {
    var body := Redraw(s.start, s.end, c, R, oracle, e);
    var grow := Grow(Edge(s, R), s.last, c, R, oracle, body.1);
    var ds := body.0 + Erase(s, c) + grow.draws;
    assert Advance(s, c, R, oracle, e).draws == ds;
    if s.n == 0 {
      assert ds[|body.0|] == Move(s.start, c) && ds[|body.0| + 1] == Put(Space);
    }
  }

  /** The glyphs an advance step draws are exactly what its `get_char` calls
      return, in order, the new leading glyph last: from a pipe they are the
      next bytes of the ring buffer and the buffer is left as those reads
      leave it; otherwise they are members of `V`. The erase blank is not a
      glyph and reads nothing. */
  lemma AdvanceGlyphs(s: Streak, c: nat, R: nat, oracle: Oracle, e: Env)
    requires e.Valid()
    ensures var r := Advance(s, c, R, oracle, e);
            var g := Drawn(r.draws);
            && (e.pipein ==> g == TakeN(e.ring, |g|).0 && r.env.ring == TakeN(e.ring, |g|).1)
            && (!e.pipein ==> forall i :: 0 <= i < |g| ==> g[i] in V)
  {
    var body := Redraw(s.start, s.end, c, R, oracle, e);
    var edge := Edge(s, R);
    var grow := Grow(edge, s.last, c, R, oracle, body.1);
    var r := Advance(s, c, R, oracle, e);
    assert r.draws == body.0 + Erase(s, c) + grow.draws && r.env == grow.env;
    RedrawGlyphs(s.start, s.end, c, R, oracle, e);
    StageDrawn(body.0, Erase(s, c), grow.draws, grow.last);
    if e.pipein {
      StageReads(e.ring, Drawn(body.0), body.1.ring, grow.draws != [], grow.last, grow.env.ring);
    } else {
      StageAlphabet(Drawn(body.0), grow.draws != [], grow.last);
    }
  }

  /** The glyphs of an advance step, over its three stages' outcomes: the
      redraw's cells, the erase, and the leading cell, if any, are the
      redraw's glyphs followed by the leading one. */
  lemma StageDrawn(body: seq<Draw>, erase: seq<Draw>, lead: seq<Draw>, last: CChar)
    requires Cells(body) && forall i :: 0 <= i < |erase| ==> !erase[i].Attr?
    requires lead != [] ==> |lead| == 3 && lead[0].Attr? && lead[1].Move? && lead[2] == Put(last)
    ensures Drawn(body + erase + lead) == Drawn(body) + (if lead == [] then [] else [last])
  {
    DrawnAround(body, erase, lead);
    if lead != [] {
      assert Drawn(lead[3..]) == [];
    }
  }

  /** In pipe mode: the redraw's reads that left `mid`, then the leading
      cell's read of `mid`, if there is a leading cell. */
  lemma StageReads(ring: Ring, gb: seq<CChar>, mid: Ring, lead: bool, last: CChar, fin: Ring)
    requires ring.Valid() && gb == TakeN(ring, |gb|).0 && mid == TakeN(ring, |gb|).1
    requires !lead ==> fin == mid
    requires lead ==> Take(mid) == (last, fin)
    ensures var g := gb + (if lead then [last] else []);
            g == TakeN(ring, |g|).0 && fin == TakeN(ring, |g|).1
  {
    if lead {
      ReadOneMore(ring, |gb|, mid, last, fin);
    } else {
      assert gb + [] == gb;
    }
  }

  /** Otherwise: glyphs from `V`, then possibly one more from `V`. */
  lemma StageAlphabet(gb: seq<CChar>, lead: bool, last: CChar)
    requires forall i :: 0 <= i < |gb| ==> gb[i] in V
    requires lead ==> last in V
    ensures var g := gb + (if lead then [last] else []);
            forall i :: 0 <= i < |g| ==> g[i] in V
  {
    var g := gb + (if lead then [last] else []);
    forall i | 0 <= i < |g|
      ensures g[i] in V
    {
      if i < |gb| {
        assert g[i] == gb[i];
      }
    }
  }

  /** Whether a tick leaves streak s waiting rather than advancing it. */
  predicate Waits(s: Streak)
    requires s.speed > 0
  {
    (s.counter + 1) % s.speed != 0
  }

  /** One column of one tick. An empty slot may receive a newborn streak,
      which is not advanced in the tick that creates it. A streak ticks its
      counter modulo `speed`; while the counter is nonzero nothing else
      changes, nothing is drawn and no random outcome is used; when it wraps
      the streak takes an advance step. */
  function Step(slot: Slot, c: nat, R: nat, oracle: Oracle, e: Env): (r: StepResult)
    requires R >= 1 && e.Valid() && Runnable(slot)
    ensures r.env.Valid() && ReadsOnly(e, r.env) && InColumn(r.draws, c) && Runnable(r.slot)
    ensures slot.Empty? ==> r.draws == [] && (r.slot.Live? ==> r.slot.streak.start == r.slot.streak.end == 0)
    ensures slot.Live? && r.slot.Live? ==>
              && r.slot.streak.speed == slot.streak.speed
              && r.slot.streak.counter == (slot.streak.counter + 1) % slot.streak.speed < r.slot.streak.speed
    ensures slot.Live? && Waits(slot.streak) ==>
              && r.slot.Live? && r.draws == [] && r.env == e
              && r.slot.streak == slot.streak.(counter := (slot.streak.counter + 1) % slot.streak.speed)
  {
    match slot
    case Empty => Create(R, oracle, e)
    case Live(s) =>
      var ticked := s.(counter := (s.counter + 1) % s.speed);
      if ticked.counter != 0 then StepResult(Live(ticked), [], e)
      else Advance(ticked, c, R, oracle, e)
  }

  /** A tick over an empty slot is exactly the creation trial. */
  lemma StepCreates(slot: Slot, c: nat, R: nat, oracle: Oracle, e: Env)
    requires R >= 1 && e.Valid() && slot.Empty?
    ensures Step(slot, c, R, oracle, e) == Create(R, oracle, e)
  {
  }

  /** The tick on which a streak's counter wraps to zero is exactly the
      advance step of that streak with its counter reset: every draw, read
      and change of that step is the tick's. */
  lemma StepAdvances(slot: Slot, c: nat, R: nat, oracle: Oracle, e: Env)
    requires R >= 1 && e.Valid() && slot.Live? && slot.streak.speed > 0 && !Waits(slot.streak)
    ensures Step(slot, c, R, oracle, e) == Advance(slot.streak.(counter := 0), c, R, oracle, e)
  {
  }

  /** An advance step keeps the edges ordered and within one row below the
      screen, never stores a streak whose edges meet, and uses up exactly one
      unit of Measure. It retires the streak exactly when the step starts with
      the budget spent and the trailing edge on row R. */
  lemma AdvanceOrdered(s: Streak, c: nat, R: nat, oracle: Oracle, e: Env)
    requires e.Valid() && Ordered(s, R)
    ensures var r := Advance(s, c, R, oracle, e);
            && (r.slot.Empty? <==> s.n == 0 && s.start == R)
            && (r.slot.Empty? ==> Measure(s, R) == 1)
            && (r.slot.Live? ==>
                  && Ordered(r.slot.streak, R)
                  && r.slot.streak.start < r.slot.streak.end
                  && Measure(r.slot.streak, R) == Measure(s, R) - 1)
  {
  }

  /** An advance step draws only on rows [0, R]. Row R, one below the
      screen, is reached only by the erase of the step that retires the
      streak; a streak that stays stored draws on visible rows only. */
  lemma AdvanceRows(s: Streak, c: nat, R: nat, oracle: Oracle, e: Env)
    requires e.Valid() && Ordered(s, R)
    ensures RowsWithin(Advance(s, c, R, oracle, e).draws, 0, R + 1)
    ensures Advance(s, c, R, oracle, e).slot.Live? ==> RowsWithin(Advance(s, c, R, oracle, e).draws, 0, R)
  {
    var r := Advance(s, c, R, oracle, e);
    AdvanceOrdered(s, c, R, oracle, e);
    var body := Redraw(s.start, s.end, c, R, oracle, e);
    var grow := Grow(Edge(s, R), s.last, c, R, oracle, body.1);
    assert r.draws == body.0 + Erase(s, c) + grow.draws;
    var hi := if r.slot.Live? then R else R + 1;
    assert RowsWithin(body.0, 0, hi);
    assert RowsWithin(Erase(s, c), 0, hi);
    assert RowsWithin(grow.draws, 0, hi);
    RowsWithinAppend(body.0, Erase(s, c), 0, hi);
    RowsWithinAppend(body.0 + Erase(s, c), grow.draws, 0, hi);
  }

  /** One tick keeps a stored streak's invariant, and its draws stay on rows
      [0, R]. */
  lemma StepInv(slot: Slot, c: nat, R: nat, oracle: Oracle, e: Env)
    requires R >= 1 && e.Valid() && SlotInv(slot, R)
    ensures SlotInv(Step(slot, c, R, oracle, e).slot, R)
    ensures RowsWithin(Step(slot, c, R, oracle, e).draws, 0, R + 1)
  {
    match slot
    case Empty =>
    case Live(s) =>
      var ticked := s.(counter := (s.counter + 1) % s.speed);
      if ticked.counter == 0 {
        var r := Advance(ticked, c, R, oracle, e);
        AdvanceOrdered(ticked, c, R, oracle, e);
        AdvanceRows(ticked, c, R, oracle, e);
        assert Step(slot, c, R, oracle, e) == r;
        assert RowsWithin(r.draws, 0, R + 1);
        assert r.slot.Live? ==> Ordered(r.slot.streak, R) && r.slot.streak.speed == s.speed && r.slot.streak.counter == 0;
      } else {
        assert Step(slot, c, R, oracle, e) == StepResult(Live(ticked), [], e);
      }
  }

  /** A tick that leaves a streak waiting moves its counter on and keeps its
      Measure; one that advances it resets the counter and uses up one unit
      of Measure; a streak is removed only by the advance with one unit
      left. */
  lemma StepMeasure(s: Streak, c: nat, R: nat, oracle: Oracle, e: Env)
    requires R >= 1 && e.Valid() && Inv(s, R)
    ensures var r := Step(Live(s), c, R, oracle, e);
            && (r.slot.Live? ==>
                  || (r.slot.streak.counter == s.counter + 1
                      && Measure(r.slot.streak, R) == Measure(s, R))
                  || (r.slot.streak.counter == 0 && s.counter + 1 == s.speed
                      && Measure(r.slot.streak, R) == Measure(s, R) - 1))
            && (r.slot.Empty? ==> s.counter + 1 == s.speed && Measure(s, R) == 1)
  {
    CounterWraps(s.counter, s.speed);
    var ticked := s.(counter := (s.counter + 1) % s.speed);
    assert Measure(ticked, R) == Measure(s, R);
    if ticked.counter == 0 {
      var r := Advance(ticked, c, R, oracle, e);
      assert Step(Live(s), c, R, oracle, e) == r;
      AdvanceOrdered(ticked, c, R, oracle, e);
    } else {
      assert Step(Live(s), c, R, oracle, e) == StepResult(Live(ticked), [], e);
    }
  }

  /** A counter below its modulus moves on by one, wrapping to zero only
      from the last value. */
  lemma CounterWraps(x: nat, m: nat)
    requires x < m
    ensures (x + 1) % m == (if x + 1 == m then 0 else x + 1)
  {
  }

  /** A streak between advance steps has at least one advance step left. */
  lemma MeasurePositive(s: Streak, R: nat)
    requires Ordered(s, R)
    ensures Measure(s, R) >= 1
  {
  }

  /** Ticks a stored streak has left: the ticks to its next advance, then
      `speed` ticks for each advance after that. */
  function Lifetime(s: Streak, R: nat): nat
    requires Inv(s, R)
  {
    MeasurePositive(s, R);
    s.speed * (Measure(s, R) - 1) + (s.speed - s.counter)
  }

  lemma LifetimeAdvance(s: Streak, s': Streak, R: nat)
    requires Inv(s, R) && Inv(s', R)
    requires s'.speed == s.speed && s'.counter == 0 && s.counter + 1 == s.speed
    requires Measure(s', R) == Measure(s, R) - 1
    ensures Lifetime(s, R) == Lifetime(s', R) + 1
  {
    MeasurePositive(s', R);
    var m := Measure(s', R);
    assert s.speed * m == s.speed * (m - 1) + s.speed;
  }

  /** A newborn streak with budget n lives exactly speed * (n + R + 1) ticks. */
  lemma NewbornLifetime(s: Streak, R: nat)
    requires Inv(s, R) && s.start == 0 && s.end == 0 && s.counter == 0
    ensures Lifetime(s, R) == s.speed * (s.n + R + 1)
  {
    var m := Measure(s, R);
    assert m == s.n + R + 1;
    assert s.speed * m == s.speed * (m - 1) + s.speed;
  }

  /** Every streak drains: whatever the random outcomes and the piped input,
      a stored streak is removed after exactly
      speed * (Measure - 1) + (speed - counter) ticks, one advance step every
      `speed` ticks and Measure advance steps in all. */
  function TicksToRetire(s: Streak, c: nat, R: nat, oracle: Oracle, e: Env): (t: nat)
    requires R >= 1 && e.Valid() && Inv(s, R)
    ensures t == Lifetime(s, R)
    decreases Measure(s, R), s.speed - s.counter
  {
    var r := Step(Live(s), c, R, oracle, e);
    StepInv(Live(s), c, R, oracle, e);
    StepMeasure(s, c, R, oracle, e);
    match r.slot
    case Empty =>
      MeasurePositive(s, R);
      1
    case Live(s') =>
      var rest := TicksToRetire(s', c, R, oracle, r.env);
      if s'.counter == 0 then
        LifetimeAdvance(s, s', R);
        1 + rest
      else
        1 + rest
  }
}

=== FILE: terminal.dfy ===
/** The render surface: the escape sequences the program emits, kept as
    abstract commands rather than as formatted text. */
module Terminal {
  import opened CChars

  /** Foreground colours, in ANSI order. */
  const Black: nat := 0
  const Red: nat := 1
  const Green: nat := 2
  const Yellow: nat := 3
  const Blue: nat := 4
  const Magenta: nat := 5
  const Cyan: nat := 6
  const White: nat := 7

  /** Weights passed as the first parameter of the colour sequence. */
  const NormalAttr: nat := 1
  const BoldAttr: nat := 22

  datatype Draw =
    | CursorOff                      // hide the cursor
    | EraseScreen                    // clear the whole screen
    | Move(row: int, col: int)       // cursor to a 0-based cell
    | Attr(fg: nat, weight: nat)     // foreground colour and weight
    | Put(ch: CChar)                 // one character at the cursor

  /** Every cursor move in `ds` stays in column `c`. */
  predicate InColumn(ds: seq<Draw>, c: int) {
    forall i :: 0 <= i < |ds| && ds[i].Move? ==> ds[i].col == c
  }

  lemma InColumnAppend(a: seq<Draw>, b: seq<Draw>, c: int)
    requires InColumn(a, c) && InColumn(b, c)
    ensures InColumn(a + b, c)
  {
    forall i | 0 <= i < |a + b| && (a + b)[i].Move?
      ensures (a + b)[i].col == c
    {
      if i < |a| {
        assert (a + b)[i] == a[i];
      } else {
        assert (a + b)[i] == b[i - |a|];
      }
    }
  }

  /** A draw in the second part of a concatenation is in the whole. */
  lemma InAppend(d: Draw, a: seq<Draw>, b: seq<Draw>)
    requires d in b
    ensures d in a + b
  {
    var k :| 0 <= k < |b| && b[k] == d;
    assert (a + b)[|a| + k] == d;
  }

  /** Every cursor move in `ds` targets a row in [lo, hi). */
  predicate RowsWithin(ds: seq<Draw>, lo: int, hi: int) {
    forall i :: 0 <= i < |ds| && ds[i].Move? ==> lo <= ds[i].row < hi
  }

  lemma RowsWithinAppend(a: seq<Draw>, b: seq<Draw>, lo: int, hi: int)
    requires RowsWithin(a, lo, hi) && RowsWithin(b, lo, hi)
    ensures RowsWithin(a + b, lo, hi)
  {
    forall i | 0 <= i < |a + b| && (a + b)[i].Move?
      ensures lo <= (a + b)[i].row < hi
    {
      if i < |a| {
        assert (a + b)[i] == a[i];
      } else {
        assert (a + b)[i] == b[i - |a|];
      }
    }
  }

  /** The cursor moves of `ds` go strictly down the screen. */
  predicate RowsIncreasing(ds: seq<Draw>) {
    forall i, j :: 0 <= i < j < |ds| && ds[i].Move? && ds[j].Move? ==> ds[i].row < ds[j].row
  }

  /** Every cursor move in `ds` is to column `c` or to its right. */
  predicate ColumnsFrom(ds: seq<Draw>, c: int) {
    forall i :: 0 <= i < |ds| && ds[i].Move? ==> c <= ds[i].col
  }

  /** The cursor moves of `ds` never go back to an earlier column: each is
      followed only by moves to its own column or further right. */
  predicate ColumnsOrdered(ds: seq<Draw>) {
    forall i :: 0 <= i < |ds| && ds[i].Move? ==> ColumnsFrom(ds[i + 1..], ds[i].col)
  }

  /** Every cursor move in `ds` targets a column in [lo, hi). */
  predicate ColumnsWithin(ds: seq<Draw>, lo: int, hi: int) {
    forall i :: 0 <= i < |ds| && ds[i].Move? ==> lo <= ds[i].col < hi
  }

  /** Draws for column c followed by ordered draws further right are
      ordered. */
  lemma OrderedAppend(a: seq<Draw>, b: seq<Draw>, c: int, hi: int)
    requires c < hi && InColumn(a, c) && ColumnsWithin(b, c + 1, hi) && ColumnsOrdered(b)
    ensures ColumnsOrdered(a + b) && ColumnsWithin(a + b, c, hi)
  {
    var ab := a + b;
    forall i | 0 <= i < |ab| && ab[i].Move?
      ensures ColumnsFrom(ab[i + 1..], ab[i].col)
    {
      if i < |a| {
        assert ab[i] == a[i];
        var tail := ab[i + 1..];
        assert tail == a[i + 1..] + b;
        forall j | 0 <= j < |tail| && tail[j].Move?
          ensures ab[i].col <= tail[j].col
        {
          if j < |a| - i - 1 {
            assert tail[j] == a[i + 1 + j];
          } else {
            assert tail[j] == b[j - (|a| - i - 1)];
          }
        }
      } else {
        assert ab[i] == b[i - |a|];
        assert ab[i + 1..] == b[i - |a| + 1..];
      }
    }
    forall i | 0 <= i < |ab| && ab[i].Move?
      ensures c <= ab[i].col < hi
    {
      if i < |a| {
        assert ab[i] == a[i];
      } else {
        assert ab[i] == b[i - |a|];
      }
    }
  }

  /** `ds` is a run of whole glyph cells: colour, cursor move, character. */
  predicate Cells(ds: seq<Draw>)
    decreases |ds|
  {
    ds == [] || (|ds| >= 3 && ds[0].Attr? && ds[1].Move? && ds[2].Put? && Cells(ds[3..]))
  }

  /** The glyphs of a draw list: the characters put right after a colour
      command and a cursor move, in drawing order. The blank of an erase,
      which sets no colour, is not among them. */
  function Drawn(ds: seq<Draw>): seq<CChar>
    decreases |ds|
  {
    if |ds| < 3 then []
    else if ds[0].Attr? && ds[1].Move? && ds[2].Put? then [ds[2].ch] + Drawn(ds[3..])
    else Drawn(ds[1..])
  }

  /** The glyphs of whole cells followed by more draws are the cells' glyphs
      and then the others. */
  lemma {:induction false} DrawnAppend(a: seq<Draw>, b: seq<Draw>)
    requires Cells(a)
    ensures Drawn(a + b) == Drawn(a) + Drawn(b)
    decreases |a|
  {
    if a != [] {
      assert (a + b)[3..] == a[3..] + b;
      DrawnAppend(a[3..], b);
    } else {
      assert a + b == b;
    }
  }

  /** Draws without a colour command add no glyph in front of others. */
  lemma {:induction false} DrawnSkip(a: seq<Draw>, b: seq<Draw>)
    requires forall i :: 0 <= i < |a| ==> !a[i].Attr?
    ensures Drawn(a + b) == Drawn(b)
    decreases |a|
  {
    if a != [] {
      assert (a + b)[1..] == a[1..] + b;
      DrawnSkip(a[1..], b);
    } else {
      assert a + b == b;
    }
  }

  /** Whole cells, then draws without a colour command, then more draws:
      the glyphs are those of the cells and of the last part. */
  lemma DrawnAround(a: seq<Draw>, b: seq<Draw>, c: seq<Draw>)
    requires Cells(a) && forall i :: 0 <= i < |b| ==> !b[i].Attr?
    ensures Drawn(a + b + c) == Drawn(a) + Drawn(c)
  {
    assert a + b + c == a + (b + c);
    DrawnAppend(a, b + c);
    DrawnSkip(b, c);
  }
}
